=== FILE: README.md ===
# Poll scheduling and admission control of the BACnet poller

A Dafny model of two pieces of the BACnet consumer (`gov.nrel.bacnet.consumer`):

- **`PollDeviceTask`** polls one remote device. Its `init` method folds every
  point's desired poll interval into one base period: the greatest common divisor
  of the intervals. A base below 15 seconds is refused. With no intervals at all it
  falls back to a two-hour period. Each point gets a multiplier
  (`interval / base`) and a random phase in `[0, multiplier)`. `init` also picks a
  random initial delay. On each tick, `createOidRefsImpl` selects a point iff
  `numTimesRun % multiply == random`. `sendRequest` then reads the selected
  `presentValue` references in one bulk request. If the bulk read throws a
  `BACnetException`, it reads them again in chunks of 10 and merges the results.
  Every reference in the resulting value set becomes one `BACnetData` record, and
  all records share one timestamp. `run` catches every exception and increments
  `numTimesRun` in a `finally` block.
- **`OurExecutor`** hands work to a thread pool. `execute` drops the task when the
  pool's queue holds more than 200 tasks. A queue of exactly 200 still admits.
  Any exception from the pool is swallowed.

Modules and files:

| file | module | models |
|---|---|---|
| `results.dfy` | `Results` | `Option` (null) and `Result` (thrown exceptions) |
| `java_int.dfy` | `JavaInt` | Java `int` range, `BigInteger.intValue()` narrowing, truncating `/`, `Math.min` |
| `arith.dfy` | `Arith` | division and remainder facts used by the proofs |
| `divisibility.dfy` | `Divisibility` | Euclid's gcd, its left fold, and the order-free definition of "greatest common divisor" |
| `schedule.dfy` | `IntervalSchedule` | `init`, `gcdThing`, the due-tick test |
| `poll_cycle.dfy` | `PollCycle` | `createOidRefs`, `sendRequest`, `readPropValsInBatches`, `printDataPoint`, `tryGetValue`, `run` |
| `executor.dfy` | `AdmissionExecutor` | `OurExecutor.execute`, `getQueueCount` |

Modelling choices:

- Intervals are Java `int`s. `gcdThing` computes the gcd of the two magnitudes
  (as `BigInteger.gcd` does) and narrows it back to 32 bits.
- Every `r.nextInt(k)` is a nondeterministic choice in `[0, k)`. A bound `k <= 0`
  is the `IllegalArgumentException` that `Random.nextInt` throws.
- The `intervals` map is given as its entries in iteration order. Keys are
  distinct. Proving that the gcd does not depend on that order is one of the
  properties.
- The remote device is three functions. `read` answers the bulk `readProperties`
  call and can fail with a timeout, another `BACnetException`, or any other
  exception. `partition` stands for `getPropertiesPartitioned(10)`. `readChunk`
  answers the separate `readProperties` call made for the chunk at each
  position, so a chunk can succeed where the bulk read of the same references
  failed.
- A `PropertyValues` container is a sequence of entries with distinct references.
  Adding to it replaces or appends.
- The timestamp (`curTime`) and the device instance number are inputs.
- A `PollDeviceTask` is the value `PollTask`. It holds `numTimesRun`, the cached
  oids and the multipliers. `run` maps one such value to the next.
- The executor's pool is abstracted to its queue. Each `execute` call is told what
  the pool did with the task: queued it, started a worker with it, or threw.

Behaviour of the code as written, which the model keeps:

- With exactly one interval, `current` is still `null` when `gcdThing` unboxes it.
  The result is a `NullPointerException` (`NullUnboxed`), not a one-interval
  schedule.
- `min` is overwritten with `Math.min(current, next)` on every iteration, so for
  positive intervals it ends up equal to the base. Otherwise the multiplier loop
  throws before `min` is used. The initial delay therefore lies in `[0, base)`,
  not in `[0, smallest interval)` as the comment at line 267 says.
- `BACnetTimeoutException` is a `BACnetException`, so a timed-out bulk read also
  falls back to chunked reads.
- A chunk read that throws aborts the whole fallback. The exception leaves
  `sendRequest`, so no records are made for that cycle, not even from chunks that
  succeeded.
- Only an empty `cachedOids` list skips the read. When no cached point is due on a
  tick, the empty reference set is still passed to the bulk read, and whatever
  that read answers becomes the batch. An empty answer gives an empty batch.
- A cached oid with no multiplier configuration ends the cycle with a
  `NullPointerException`. A zero multiplier ends it with an `ArithmeticException`.

## Model

| member | source | states |
|---|---|---|
| `JavaInt.ToInt32` | src/main/java/gov/nrel/bacnet/consumer/PollDeviceTask.java:276 | `intValue()` keeps a value already in `int` range and otherwise differs from it by a multiple of 2^32 |
| `JavaInt.Quot` | src/main/java/gov/nrel/bacnet/consumer/PollDeviceTask.java:261 | Java division by the positive base truncates toward zero: `q * b <= a < q * b + b` for a non-negative interval, `q * b - b < a <= q * b` for a negative one, and the quotient is exact when the base divides the interval |
| `JavaInt.Rem` | src/main/java/gov/nrel/bacnet/consumer/PollDeviceTask.java:213 | Java's `%` takes the sign of the dividend, is smaller than the divisor in magnitude, and differs from the dividend by a multiple of the divisor |
| `Divisibility.GcdDivides` | src/main/java/gov/nrel/bacnet/consumer/PollDeviceTask.java:272-277 | the gcd of two numbers, not both zero, is positive and divides both |
| `Divisibility.GcdGreatest` | src/main/java/gov/nrel/bacnet/consumer/PollDeviceTask.java:272-277 | every common divisor of the two numbers divides their gcd |
| `Divisibility.GcdOfAllIsGcd` | src/main/java/gov/nrel/bacnet/consumer/PollDeviceTask.java:243-254 | pairwise reduction over all intervals yields a common divisor that every common divisor divides, i.e. the mathematical gcd |
| `Divisibility.GcdOfAllOrderIndependent` | src/main/java/gov/nrel/bacnet/consumer/PollDeviceTask.java:235-254 | the reduction gives the same base whatever order the interval map iterates its values in |
| `Divisibility.GcdUnique` | src/main/java/gov/nrel/bacnet/consumer/PollDeviceTask.java:243-254 | a non-empty set of intervals has only one greatest common divisor |
| `IntervalSchedule.GcdThing` | src/main/java/gov/nrel/bacnet/consumer/PollDeviceTask.java:272-277 | `gcdThing` returns 0 for two zeros; otherwise the magnitude of its result is the greatest common divisor of the arguments' magnitudes and the result is never negative except for `MIN_VALUE`, which `(MIN_VALUE, MIN_VALUE)` gives; for two positive intervals the result is their greatest common divisor itself |
| `IntervalSchedule.ReduceIntervals` | src/main/java/gov/nrel/bacnet/consumer/PollDeviceTask.java:243-254 | fewer than two values end with the null unboxing; otherwise `current` is the narrowed gcd of all magnitudes and `min` is `Math.min(current, last value)`; for positive intervals `current` is their gcd and `min == current` |
| `IntervalSchedule.AssignMultipliers` | src/main/java/gov/nrel/bacnet/consumer/PollDeviceTask.java:260-265 | succeeds iff every interval is positive, and then gives every point, and only those points, `multiply * base == interval`, `multiply >= 1` and `0 <= random < multiply`; otherwise `nextInt` throws on a non-positive bound |
| `IntervalSchedule.Init` | src/main/java/gov/nrel/bacnet/consumer/PollDeviceTask.java:233-270 | no intervals give period 7200, a delay in `[0, 7200)` and no multipliers; one interval throws the null unboxing; a gcd below 15 throws before any schedule exists; success iff the map is empty or holds at least two positive intervals whose gcd is at least 15, and then the period is their gcd, the delay lies in `[0, period)` and every point's configuration fits its interval |
| `IntervalSchedule.ExampleBase60` | src/main/java/gov/nrel/bacnet/consumer/PollDeviceTask.java:243-265 | intervals of 60, 120 and 180 s reduce to a 60 s base in any iteration order, and a configuration fitting one of them has multiplier `interval / 60`, one of 1, 2, 3 |
| `IntervalSchedule.IsDueIsJavaRemainder` | src/main/java/gov/nrel/bacnet/consumer/PollDeviceTask.java:213 | the selection test `numTimesRun % multiply == random` with Java's truncating remainder on a non-negative tick is the model's `IsDue`, for either sign of the multiplier |
| `IntervalSchedule.DuePeriodic` | src/main/java/gov/nrel/bacnet/consumer/PollDeviceTask.java:206-216 | a point due on tick `n` is due on tick `n + multiply` and conversely |
| `IntervalSchedule.DueOncePerWindow` | src/main/java/gov/nrel/bacnet/consumer/PollDeviceTask.java:206-216 | among any `multiply` consecutive ticks exactly one satisfies `tick % multiply == random`, and it is named |
| `PollCycle.DueRefs` | src/main/java/gov/nrel/bacnet/consumer/PollDeviceTask.java:198-216 | the reference set is built iff every cached oid has a configuration with a non-zero multiplier; it then holds exactly the `presentValue` references of the cached oids due on the tick; otherwise the cycle fails at the first offending oid in list order, with a `NullPointerException` for a missing configuration and an `ArithmeticException` for a zero multiplier |
| `PollCycle.RequestedOncePerWindow` | src/main/java/gov/nrel/bacnet/consumer/PollDeviceTask.java:198-216 | with configurations as `init` makes them, a cached point is requested on exactly one of every `multiply` consecutive ticks |
| `PollCycle.Put` | src/main/java/gov/nrel/bacnet/consumer/PollDeviceTask.java:172-175 | adding an entry makes its reference present with the new value and leaves every other reference's value as it was |
| `PollCycle.Merge` | src/main/java/gov/nrel/bacnet/consumer/PollDeviceTask.java:171-176 | after merging a chunk's values, each reference holds the chunk's value if the chunk has one and its earlier value otherwise; the references are the union |
| `PollCycle.ReadInBatches` | src/main/java/gov/nrel/bacnet/consumer/PollDeviceTask.java:162-178 | the fallback succeeds iff every chunk read succeeds, and then keeps every reference it started with |
| `PollCycle.BatchAbortsAtFirstFailure` | src/main/java/gov/nrel/bacnet/consumer/PollDeviceTask.java:162-170 | the first chunk read that throws ends the fallback with its exception, whatever earlier chunks returned |
| `PollCycle.BatchKeepsEveryChunk` | src/main/java/gov/nrel/bacnet/consumer/PollDeviceTask.java:167-177 | after a successful fallback every reference a chunk returned is present, with the value from the last chunk that returned it |
| `PollCycle.KeepsUnlessOverwritten` | src/main/java/gov/nrel/bacnet/consumer/PollDeviceTask.java:167-177 | a reference no chunk returns keeps its earlier value through the fallback |
| `PollCycle.BatchRefsComeFromChunks` | src/main/java/gov/nrel/bacnet/consumer/PollDeviceTask.java:167-177 | every reference in the merged set was there before or was returned by some chunk |
| `PollCycle.FallbackCoversChunks` | src/main/java/gov/nrel/bacnet/consumer/PollDeviceTask.java:162-178 | if every chunk read answers exactly the references asked for, the merged set holds exactly the references of all chunks |
| `PollCycle.FallbackReadsDue` | src/main/java/gov/nrel/bacnet/consumer/PollDeviceTask.java:121-137 | when the bulk read throws a `BACnetException`, the partition into chunks of at most 10 holds exactly the due references, and every chunk read answers fully, the values read hold exactly the due references |
| `PollCycle.FallbackRecordCount` | src/main/java/gov/nrel/bacnet/consumer/PollDeviceTask.java:128-151 | under the same conditions `sendRequest` submits one record per distinct due reference, and the records name exactly the points due on this tick |
| `PollCycle.RecordOids` | src/main/java/gov/nrel/bacnet/consumer/PollDeviceTask.java:147-151 | when every reference read is a presentValue reference, a point has a record iff its presentValue reference was read |
| `PollCycle.TryGetValue` | src/main/java/gov/nrel/bacnet/consumer/PollDeviceTask.java:188-196 | the point's present value is returned iff the set holds a data value for it; a missing value or a device error gives null |
| `PollCycle.Records` | src/main/java/gov/nrel/bacnet/consumer/PollDeviceTask.java:147-151 | one record per entry of the value set, in its order, each for the entry's oid, with the device instance and the one shared timestamp, and a null value exactly when no present value was read |
| `PollCycle.ReadValues` | src/main/java/gov/nrel/bacnet/consumer/PollDeviceTask.java:121-137 | a successful bulk read is used as is; a non-BACnet exception ends the cycle; a BACnet exception (timeouts included) leads to the chunked fallback, which succeeds iff every chunk read does; the fallback's merged values are the result, and a chunk's exception (a timeout included) is the cycle's failure |
| `PollCycle.SendRequest` | src/main/java/gov/nrel/bacnet/consumer/PollDeviceTask.java:113-160 | with no cached oids nothing is read or recorded; otherwise it fails iff reading fails, and a submitted batch has one record per value read, in order, each naming that entry's oid and holding its present value, or null exactly when none was read; all are stamped with `curTime` and the device instance |
| `PollCycle.NothingDueStillReads` | src/main/java/gov/nrel/bacnet/consumer/PollDeviceTask.java:113-137 | with cached points but none due, the reference set is empty and is still read in bulk; an empty answer gives an empty submitted batch, and a non-BACnet throw ends the cycle |
| `PollCycle.Run` | src/main/java/gov/nrel/bacnet/consumer/PollDeviceTask.java:96-110 | `numTimesRun` grows by exactly one and nothing else changes, whether `sendRequest` returned, timed out or threw; a timeout is logged as such |
| `PollCycle.RunAllAdvances` | src/main/java/gov/nrel/bacnet/consumer/PollDeviceTask.java:96-110 | k invocations of `run` advance `numTimesRun` by exactly k |
| `AdmissionExecutor.Execute` | src/main/java/gov/nrel/bacnet/consumer/OurExecutor.java:22-36 | the task is dropped iff more than 200 tasks are queued (200 still admits), and a drop leaves the queue unchanged; otherwise it is handed to the pool; a pool exception is swallowed and leaves the queue unchanged; only a queued hand-off appends the task |
| `AdmissionExecutor.Step` | src/main/java/gov/nrel/bacnet/consumer/OurExecutor.java:42-45 | `getQueueCount` reports the current depth and changes nothing; the worker step, which takes the oldest pending task, is an abstraction of the pool's FIFO work queue, which is not part of this model |
| `AdmissionExecutor.DepthStaysBounded` | src/main/java/gov/nrel/bacnet/consumer/OurExecutor.java:26-32 | when `execute` is the only enqueuer, a depth of at most 201 survives every submission and dequeue, and `getQueueCount` never reports more |

## Left out

- Logging, the `Times` bookkeeping and the `SimpleDateFormat` string are not modelled. They do not affect any result.
- `System.currentTimeMillis()` is not modelled. The timestamp is an input.
- `readProperties` and `getPropertiesPartitioned` are bacnet4j library code. They are function parameters.
- The lookup inside `PropertyValues` is bacnet4j code. It is modelled as: an absent key and a stored device error both give null.
- `RecordTask`, the writers and `recorderSvc.execute` are output I/O. The batch counts as submitted once it is built. A `RejectedExecutionException` from that raw `ThreadPoolExecutor` is not modelled. `recorderSvc` is not an `OurExecutor`.
- `ThreadPoolExecutor` internals, worker threads, `getActiveCount` and `getScheduledSvc` are concurrency. So is the race between the size check and the hand-off. The queue is an abstract sequence, and each event is one atomic step.
- The claim that an admitted task eventually runs is a liveness property. It is not stated.
- The order of the records follows the model's value set, in which adding replaces or appends. In the code it is the iteration order of bacnet4j's `PropertyValues`, which is not part of this model. No property depends on it.
- `Random` seeding and uniformity are left out. Only the range of each draw is modelled.
- `numTimesRun` is an unbounded natural number. Its 32-bit overflow after 2^31 runs is not modelled.
- The multiplier loop can throw partway through. The entries it already wrote to the `multipliers` field are not modelled, because the failed `init` yields no schedule.
- `addInterval`, `setCachedOids`, `getCachedOids`, `getRemoteDevice`, `getDescription`, `getId` and `setId` only set or return fields. Their fields are inputs of the model.
- `IntervalSchedule.Init`: the phases and the delay are constrained only to their ranges. That they are drawn uniformly is not stated.

=== FILE: arith.dfy ===
/** Facts about multiplication, Euclidean division and remainder that the
    solver does not find unaided. */
module Arith {

  lemma MulMono(b: int, q: int)
    requires b >= 1
    ensures q >= 0 ==> b * q >= q
    ensures q < 0 ==> b * q <= q
  {
    assert b * q == (b - 1) * q + q;
    if q >= 0 { assert (b - 1) * q >= 0; } else { assert (b - 1) * q <= 0; }
  }

  /** Dividing a natural number by a positive divisor gives a quotient in
      [0, n], and multiplying back is exact when the remainder is zero. */
  lemma DivOfNat(n: nat, b: int)
    requires b > 0
    ensures 0 <= n / b <= n
    ensures n % b == 0 ==> (n / b) * b == n
    ensures (n / b) * b <= n < (n / b) * b + b
  {
    var q := n / b;
    assert n == b * q + n % b;
    MulMono(b, q);
    if q < 0 {
      MulMono(b, q + 1);
    }
  }

  /** Quotient and remainder are determined by any decomposition
      x == m * q + r with 0 <= r < m. */
  lemma ModUnique(x: int, m: int, q: int, r: int)
    requires m > 0 && 0 <= r < m
    requires x == m * q + r
    ensures x % m == r && x / m == q
  {
    var d := q - x / m;
    assert m * d == x % m - r by {
      assert x == m * (x / m) + x % m;
      assert m * d == m * q - m * (x / m);
    }
    if d >= 1 {
      MulMono(d, m);
    } else if d <= -1 {
      MulMono(-d, m);
    }
  }

  lemma MulMod(d: int, k: int)
    requires d > 0
    ensures (d * k) % d == 0 && (d * k) / d == k
  {
    ModUnique(d * k, d, k, 0);
  }

  /** A number and its remainder differ by a multiple of the modulus, in
      either sign. */
  lemma RemainderMultiple(n: nat, m: int)
    requires m > 0
    ensures (n - n % m) % m == 0 && (n % m - n) % m == 0
  {
    var q := n / m;
    assert n - n % m == m * q;
    assert n % m - n == m * -q;
    MulMod(m, q);
    MulMod(m, -q);
  }

  /** A negative divisor gives the same remainder as its magnitude. */
  lemma ModNegativeDivisor(x: nat, m: int)
    requires m < 0
    ensures x % m == x % -m
  {
    var q := x / m;
    assert x == m * q + x % m;
    assert m * q == (-m) * -q;
    ModUnique(x, -m, -q, x % m);
  }

  /** Adding a multiple of the modulus does not change the remainder. */
  lemma ModAddMultiple(x: int, m: int, k: int)
    requires m > 0
    ensures (x + m * k) % m == x % m
  {
    var q := x / m;
    assert x == m * q + x % m;
    assert x + m * k == m * (q + k) + x % m;
    ModUnique(x + m * k, m, q + k, x % m);
  }

  /** Two numbers with equal remainders that lie less than one modulus apart
      are equal. */
  lemma ModEqClose(s: int, t: int, m: int)
    requires m > 0
    requires s % m == t % m
    requires s <= t < s + m
    ensures s == t
  {
    var d := t / m - s / m;
    assert t - s == m * d by {
      assert s == m * (s / m) + s % m;
      assert t == m * (t / m) + t % m;
    }
    if d >= 1 {
      MulMono(d, m);
    } else if d <= -1 {
      MulMono(-d, m);
    }
  }
}

=== FILE: divisibility.dfy ===
/** Greatest common divisors: Euclid's algorithm, its left fold over a
    sequence, and the order-free characterisation both are proved against. */
module Divisibility {

  import Arith

  /** d is a positive divisor of n. */
  predicate Divides(d: int, n: int) {
    d > 0 && n % d == 0
  }

  predicate DividesAll(d: int, xs: seq<int>) {
    forall i :: 0 <= i < |xs| ==> Divides(d, xs[i])
  }

  /** g is the greatest common divisor of xs: a common divisor that every
      common divisor divides. Only the multiset of xs matters. */
  ghost predicate IsGcdOf(g: int, xs: seq<int>) {
    DividesAll(g, xs) && forall d :: DividesAll(d, xs) ==> Divides(d, g)
  }

  predicate AllPositive(xs: seq<int>) {
    forall i :: 0 <= i < |xs| ==> xs[i] > 0
  }

  /** Euclid's algorithm; Gcd(0, 0) == 0, as for BigInteger.gcd. */
  function Gcd(a: nat, b: nat): nat
    decreases b
  {
    if b == 0 then a else Gcd(b, a % b)
  }

  /** Pairwise reduction from the left, starting from 0 (which Gcd treats as
      a neutral element). */
  function GcdOfAll(xs: seq<nat>): nat
  {
    if |xs| == 0 then 0 else Gcd(GcdOfAll(xs[..|xs| - 1]), xs[|xs| - 1])
  }

  lemma DividesLinear(d: int, a: int, b: int, q: int)
    requires Divides(d, a) && Divides(d, b)
    ensures Divides(d, a + q * b)
  {
    var ka, kb := a / d, b / d;
    assert a == d * ka && b == d * kb;
    assert a + q * b == d * (ka + q * kb);
    Arith.MulMod(d, ka + q * kb);
  }

  lemma DividesTrans(a: int, b: int, c: int)
    requires Divides(a, b) && Divides(b, c)
    ensures Divides(a, c)
  {
    var kb, kc := b / a, c / b;
    assert b == a * kb && c == b * kc;
    assert c == a * (kb * kc);
    Arith.MulMod(a, kb * kc);
  }

  /** A positive divisor of a positive number is at most that number. */
  lemma DividesLe(d: int, n: int)
    requires Divides(d, n) && n > 0
    ensures d <= n
  {
    var k := n / d;
    assert n == d * k;
    if k <= 0 {
      Arith.MulMono(d, k);
    } else {
      Arith.MulMono(k, d);
    }
  }

  lemma DividesSelf(n: int)
    requires n > 0
    ensures Divides(n, n)
  {
    Arith.MulMod(n, 1);
  }

  /** Euclid's result divides both arguments. */
  lemma {:induction false} GcdDivides(a: nat, b: nat)
    requires a > 0 || b > 0
    ensures Gcd(a, b) > 0
    ensures Divides(Gcd(a, b), a) && Divides(Gcd(a, b), b)
    decreases b
  {
    if b == 0 {
      DividesSelf(a);
    } else {
      GcdDivides(b, a % b);
      var g := Gcd(b, a % b);
      assert a == a % b + (a / b) * b;
      DividesLinear(g, a % b, b, a / b);
    }
  }

  /** Every common divisor of the arguments divides Euclid's result. */
  lemma {:induction false} GcdGreatest(a: nat, b: nat, d: int)
    requires Divides(d, a) && Divides(d, b)
    ensures Divides(d, Gcd(a, b))
    decreases b
  {
    if b != 0 {
      assert a % b == a + (-(a / b)) * b;
      DividesLinear(d, a, b, -(a / b));
      GcdGreatest(b, a % b, d);
    }
  }

  lemma GcdZeroIff(a: nat, b: nat)
    ensures Gcd(a, b) == 0 <==> a == 0 && b == 0
  {
    if a > 0 || b > 0 {
      GcdDivides(a, b);
    }
  }

  /** The fold is the greatest common divisor of its elements whenever it is
      positive (some element is non-zero). */
  lemma {:induction false} GcdOfAllIsGcd(xs: seq<nat>)
    requires GcdOfAll(xs) > 0
    ensures IsGcdOf(GcdOfAll(xs), xs)
  {
    var n := |xs|;
    var init, last := xs[..n - 1], xs[n - 1];
    var g', g := GcdOfAll(init), GcdOfAll(xs);
    assert xs == init + [last];
    GcdZeroIff(g', last);
    GcdDivides(g', last);
    if g' == 0 {
      // Every earlier element is zero, so the fold restarts at `last`.
      AllZeroWhenFoldZero(init);
      forall i | 0 <= i < n
        ensures Divides(g, xs[i])
      {
        if i < n - 1 {
          assert xs[i] == init[i] == 0;
        }
      }
      forall d | DividesAll(d, xs)
        ensures Divides(d, g)
      {
        assert Divides(d, xs[n - 1]);
        GcdGreatest(g', last, d);
      }
    } else {
      GcdOfAllIsGcd(init);
      forall i | 0 <= i < n
        ensures Divides(g, xs[i])
      {
        if i < n - 1 {
          assert Divides(g', init[i]);
          DividesTrans(g, g', xs[i]);
        }
      }
      forall d | DividesAll(d, xs)
        ensures Divides(d, g)
      {
        assert DividesAll(d, init) by {
          forall i | 0 <= i < n - 1 ensures Divides(d, init[i]) {
            assert init[i] == xs[i];
          }
        }
        assert Divides(d, g');
        assert Divides(d, xs[n - 1]);
        GcdGreatest(g', last, d);
      }
    }
  }

  lemma {:induction false} AllZeroWhenFoldZero(xs: seq<nat>)
    requires GcdOfAll(xs) == 0
    ensures forall i :: 0 <= i < |xs| ==> xs[i] == 0
  {
    if |xs| > 0 {
      var init := xs[..|xs| - 1];
      GcdZeroIff(GcdOfAll(init), xs[|xs| - 1]);
      AllZeroWhenFoldZero(init);
      assert forall i :: 0 <= i < |xs| - 1 ==> xs[i] == init[i];
    }
  }

  /** The fold of positive numbers is positive. */
  lemma FoldPositive(xs: seq<nat>)
    requires |xs| > 0 && AllPositive(xs)
    ensures GcdOfAll(xs) > 0
  {
    if GcdOfAll(xs) == 0 {
      AllZeroWhenFoldZero(xs);
    }
  }

  /** There is at most one greatest common divisor of a non-empty sequence. */
  lemma GcdUnique(g1: int, g2: int, xs: seq<int>)
    requires |xs| > 0
    requires IsGcdOf(g1, xs) && IsGcdOf(g2, xs)
    ensures g1 == g2
  {
    assert Divides(g1, xs[0]) && Divides(g2, xs[0]);
    assert Divides(g1, g2) && Divides(g2, g1);
    DividesLe(g1, g2);
    DividesLe(g2, g1);
  }

  /** Whether d divides every element depends only on the multiset. */
  lemma DividesAllPermutation(d: int, xs: seq<int>, ys: seq<int>)
    requires multiset(xs) == multiset(ys)
    ensures DividesAll(d, xs) <==> DividesAll(d, ys)
  {
    if DividesAll(d, xs) {
      forall j | 0 <= j < |ys| ensures Divides(d, ys[j]) {
        assert ys[j] in multiset(xs);
        var i :| 0 <= i < |xs| && xs[i] == ys[j];
      }
    }
    if DividesAll(d, ys) {
      forall i | 0 <= i < |xs| ensures Divides(d, xs[i]) {
        assert xs[i] in multiset(ys);
        var j :| 0 <= j < |ys| && ys[j] == xs[i];
      }
    }
  }

  /** The greatest common divisor does not depend on the order in which
      the values are visited. */
  lemma IsGcdOfPermutation(g: int, xs: seq<int>, ys: seq<int>)
    requires multiset(xs) == multiset(ys)
    requires IsGcdOf(g, xs)
    ensures IsGcdOf(g, ys)
  {
    DividesAllPermutation(g, xs, ys);
    forall d | DividesAll(d, ys) ensures Divides(d, g) {
      DividesAllPermutation(d, xs, ys);
    }
  }

  /** Folding the same positive values in any order gives the same result. */
  lemma GcdOfAllOrderIndependent(xs: seq<nat>, ys: seq<nat>)
    requires |xs| > 0 && AllPositive(xs)
    requires multiset(xs) == multiset(ys)
    ensures GcdOfAll(xs) == GcdOfAll(ys)
  {
    assert |ys| == |multiset(ys)| == |xs|;
    forall j | 0 <= j < |ys| ensures ys[j] > 0 {
      assert ys[j] in multiset(xs);
    }
    FoldPositive(xs);
    FoldPositive(ys);
    GcdOfAllIsGcd(xs);
    GcdOfAllIsGcd(ys);
    IsGcdOfPermutation(GcdOfAll(xs), xs, ys);
    GcdUnique(GcdOfAll(xs), GcdOfAll(ys), ys);
  }

  /** The fold is bounded by any common bound of the elements. */
  lemma {:induction false} GcdOfAllBounded(xs: seq<nat>, bound: nat)
    requires forall i :: 0 <= i < |xs| ==> xs[i] <= bound
    ensures GcdOfAll(xs) <= bound
  {
    if |xs| > 0 {
      var init, last := xs[..|xs| - 1], xs[|xs| - 1];
      GcdOfAllBounded(init, bound);
      var g' := GcdOfAll(init);
      if last > 0 {
        GcdDivides(g', last);
        DividesLe(Gcd(g', last), last);
      }
    }
  }
}

=== FILE: executor.dfy ===
/** OurExecutor: hands work to a thread pool unless the pool's queue is
    already deeper than a fixed limit, in which case the work is dropped.
    The pool is abstracted to its queue of pending tasks. */
module AdmissionExecutor {

  /** execute drops a task when more than this many tasks are queued. */
  const QUEUE_LIMIT: nat := 200

  /** What ThreadPoolExecutor.execute did with a task it was handed: put it
      on the queue, gave it straight to a new worker, or threw (for example
      RejectedExecutionException). */
  datatype PoolResponse = Queued | StartedWorker | Threw

  /** The pool's work queue. */
  datatype Executor<T> = Executor(queue: seq<T>)

  /** How execute returned. It always returns normally. */
  datatype Admission = Handed | Dropped(depth: nat) | Swallowed

  /** OurExecutor.execute. */
  function Execute<T>(e: Executor<T>, task: T, pool: PoolResponse): (r: (Executor<T>, Admission))
    ensures r.1.Dropped? <==> |e.queue| > QUEUE_LIMIT
    ensures r.1.Dropped? ==> r.1.depth == |e.queue|
    ensures r.1 == Handed <==> |e.queue| <= QUEUE_LIMIT && pool != Threw
    ensures r.1.Swallowed? ==> pool == Threw
    ensures r.1 != Handed || pool != Queued ==> r.0 == e
    ensures r.1 == Handed && pool == Queued ==> r.0.queue == e.queue + [task]
  {
    var size := |e.queue|;
    if size > QUEUE_LIMIT then
      (e, Dropped(size))
    else
      match pool
      case Queued => (Executor(e.queue + [task]), Handed)
      case StartedWorker => (e, Handed)
      case Threw => (e, Swallowed)
  }

  /** Everything that touches the queue: a submission through execute, a
      worker taking the oldest pending task, and a getQueueCount query. */
  datatype Event<T> = Submit(task: T, pool: PoolResponse) | WorkerTakes | QueryDepth

  datatype Observation = Admitted(admission: Admission) | Took | Idle | Depth(n: nat)

  function Step<T>(e: Executor<T>, ev: Event<T>): (r: (Executor<T>, Observation))
    ensures ev.QueryDepth? ==> r == (e, Depth(|e.queue|))
    ensures ev.WorkerTakes? && |e.queue| > 0 ==> r.0.queue == e.queue[1..]
  {
    match ev
    case Submit(task, pool) =>
      var (e', a) := Execute(e, task, pool);
      (e', Admitted(a))
    case WorkerTakes =>
      if |e.queue| == 0 then (e, Idle) else (Executor(e.queue[1..]), Took)
    case QueryDepth =>
      (e, Depth(|e.queue|))
  }

  /** The depth execute can reach when it is the only enqueuer. */
  predicate Bounded<T>(e: Executor<T>) {
    |e.queue| <= QUEUE_LIMIT + 1
  }

  function Replay<T>(e: Executor<T>, events: seq<Event<T>>): (Executor<T>, seq<Observation>)
    decreases |events|
  {
    if |events| == 0 then (e, [])
    else
      var (e', o) := Step(e, events[0]);
      var (final, rest) := Replay(e', events[1..]);
      (final, [o] + rest)
  }

  /** A queue of at most 201 tasks stays so through any submissions and
      dequeues, and getQueueCount never reports more. */
  lemma {:induction false} DepthStaysBounded<T>(e: Executor<T>, events: seq<Event<T>>)
    requires Bounded(e)
    ensures Bounded(Replay(e, events).0)
    ensures forall o :: o in Replay(e, events).1 && o.Depth? ==> o.n <= QUEUE_LIMIT + 1
    decreases |events|
  {
    if |events| > 0 {
      DepthStaysBounded(Step(e, events[0]).0, events[1..]);
    }
  }
}

=== FILE: java_int.dfy ===
/** The pieces of Java's 32-bit integer semantics the poller relies on. */
module JavaInt {

  import Arith

  const INT_MIN: int := -0x8000_0000
  const INT_MAX: int := 0x7fff_ffff

  /** A Java `int`. */
  type Int32 = x: int | -0x8000_0000 <= x < 0x8000_0000

  /** Narrowing to `int` by keeping the low 32 bits, as `BigInteger.intValue()` does. */
  function ToInt32(x: int): (r: Int32)
    ensures INT_MIN <= x <= INT_MAX ==> r == x
    ensures (x - r) % 0x1_0000_0000 == 0
  {
    var low := x % 0x1_0000_0000;
    if low <= INT_MAX then low else low - 0x1_0000_0000
  }

  function Abs(x: int): (r: nat)
    ensures r == x || r == -x
  {
    if x < 0 then -x else x
  }

  /** Java's `Math.min` on two `int`s. */
  function Min(a: Int32, b: Int32): (r: Int32)
    ensures r <= a && r <= b
    ensures r == a || r == b
  {
    if a <= b then a else b
  }

  /** Java's `/` on `int`s: the quotient is truncated toward zero. */
  function Quot(a: int, b: int): (q: int)
    requires b > 0
    ensures a >= 0 ==> 0 <= q <= a
    ensures a < 0 ==> a <= q <= 0
    ensures a >= 0 ==> q * b <= a < q * b + b
    ensures a < 0 ==> q * b - b < a <= q * b
    ensures Abs(a) % b == 0 ==> q * b == a
  {
    Arith.DivOfNat(Abs(a), b);
    if a >= 0 then a / b
    else
      var n := (-a) / b;
      assert (-n) * b == -(n * b);
      -n
  }

  /** Java's `%` on `int`s: the remainder takes the sign of the dividend,
      is smaller than the divisor in magnitude, and differs from the dividend
      by a multiple of the divisor. */
  function Rem(a: int, b: int): (r: int)
    requires b != 0
    ensures a >= 0 ==> 0 <= r < Abs(b)
    ensures a < 0 ==> r <= 0 && Abs(r) < Abs(b)
    ensures (a - r) % Abs(b) == 0
  {
    var m := Abs(b);
    Arith.RemainderMultiple(Abs(a), m);
    if a >= 0 then a % m else -((-a) % m)
  }

  /** A magnitude in [0, 2^31] survives a narrowing through `ToInt32`:
      only 2^31 itself wraps, to Integer.MIN_VALUE, whose magnitude is 2^31. */
  lemma AbsToInt32(g: nat)
    requires g <= 0x8000_0000
    ensures Abs(ToInt32(g)) == g
  {
  }
}

=== FILE: poll_cycle.dfy ===
/** One poll of a device by PollDeviceTask: select the points due on this
    tick, read them in one bulk request, fall back to chunked reads when the
    bulk read fails, and turn the values into one record per reference. */
module PollCycle {

  import opened Results
  import opened IntervalSchedule

  /** Chunk size handed to getPropertiesPartitioned by the fallback. */
  const CHUNK_SIZE: nat := 10

  datatype PropId = PresentValue | OtherProperty(id: nat)

  /** An ObjectPropertyReference. */
  datatype PropRef = PropRef(oid: Oid, prop: PropId, arrayIndex: Option<nat>)

  /** The reference createOidRefsImpl adds for a due point. */
  function PresentValueRef(oid: Oid): PropRef {
    PropRef(oid, PresentValue, None)
  }

  /** A property value as a device returns it: data, or the error the device
      reported in its place. */
  datatype Encodable = Datum(payload: int) | ErrorValue(errorClass: nat, errorCode: nat)

  datatype Entry = Entry(ref: PropRef, value: Encodable)

  function Refs(vs: seq<Entry>): set<PropRef> {
    if |vs| == 0 then {} else {vs[0].ref} + Refs(vs[1..])
  }

  predicate DistinctRefs(vs: seq<Entry>) {
    |vs| == 0 || (vs[0].ref !in Refs(vs[1..]) && DistinctRefs(vs[1..]))
  }

  /** A PropertyValues container: at most one value per reference, kept in
      its iteration order. */
  type ValueSet = vs: seq<Entry> | DistinctRefs(vs) witness []

  /** The exceptions LocalDevice.readProperties can throw:
      BACnetTimeoutException, another BACnetException, or anything else. */
  datatype ReadError = Timeout | ProtocolError | OtherException

  /** The answer to the readProperties call for the chunk at a given
      position of the fallback. */
  type ChunkReader = (nat, seq<PropRef>) -> Result<ValueSet, ReadError>

  /** The device as the poller sees it during one cycle: `read` answers the
      bulk readProperties call, `partition` is
      getPropertiesPartitioned(CHUNK_SIZE), and `readChunk` answers the
      separate readProperties call made for each chunk, so a chunk may
      succeed where the bulk read failed. */
  datatype Remote = Remote(
    read: seq<PropRef> -> Result<ValueSet, ReadError>,
    partition: seq<PropRef> -> seq<seq<PropRef>>,
    readChunk: ChunkReader)

  /** Why sendRequest ends with an exception. */
  datatype CycleFailure =
    | MissingConfig(oid: Oid)    // NullPointerException: no MultiplyConfig for a cached oid
    | ZeroMultiplier(oid: Oid)   // ArithmeticException: remainder by zero
    | ReadFailed(error: ReadError)

  /** The mutable fields of a PollDeviceTask the cycle reads or writes. */
  datatype PollTask = PollTask(
    instance: int,
    numTimesRun: nat,
    cachedOids: seq<Oid>,
    multipliers: map<Oid, MultiplyConfig>)

  /** A BACnetData record: the oid, its present value or null, the device
      instance and the cycle's timestamp. */
  datatype Record = Record(oid: Oid, value: Option<Encodable>, instance: int, time: int)

  /** How sendRequest returns normally. */
  datatype Sent = NothingToScan | Submitted(batch: seq<Record>)

  /** What run() logs. No exception leaves run(). */
  datatype RunLog = Done(sent: Sent) | DeviceTimeout | ExceptionLogged(failure: CycleFailure)

  /** The point passes createOidRefsImpl's test on this tick. */
  predicate DueIn(multipliers: map<Oid, MultiplyConfig>, oid: Oid, tick: nat) {
    oid in multipliers && multipliers[oid].multiply != 0 && IsDue(multipliers[oid], tick)
  }

  /** createOidRefs: a presentValue reference for every cached oid that is
      due on `tick`. An oid without a configuration ends the cycle with a
      NullPointerException, a zero multiplier with an ArithmeticException. */
  function DueRefs(oids: seq<Oid>, multipliers: map<Oid, MultiplyConfig>, tick: nat)
    : (r: Result<seq<PropRef>, CycleFailure>)
    ensures r.Ok? <==> forall o :: o in oids ==> o in multipliers && multipliers[o].multiply != 0
    ensures r.Err? ==> exists k ::
      && 0 <= k < |oids|
      && (forall j :: 0 <= j < k ==> oids[j] in multipliers && multipliers[oids[j]].multiply != 0)
      && r.error == (if oids[k] !in multipliers then MissingConfig(oids[k]) else ZeroMultiplier(oids[k]))
      && (oids[k] in multipliers ==> multipliers[oids[k]].multiply == 0)
    ensures r.Ok? ==> forall o :: PresentValueRef(o) in r.value <==> o in oids && DueIn(multipliers, o, tick)
    ensures r.Ok? ==> forall ref :: ref in r.value ==> ref == PresentValueRef(ref.oid)
  {
    if |oids| == 0 then Ok([])
    else
      var o := oids[0];
      if o !in multipliers then Err(MissingConfig(o))
      else if multipliers[o].multiply == 0 then Err(ZeroMultiplier(o))
      else
        var rest := DueRefs(oids[1..], multipliers, tick);
        if rest.Err? then rest
        else if IsDue(multipliers[o], tick) then Ok([PresentValueRef(o)] + rest.value)
        else Ok(rest.value)
  }

  /** PropertyValues lookup by reference. */
  function Get(vs: seq<Entry>, ref: PropRef): (v: Option<Encodable>)
    ensures v.Some? <==> ref in Refs(vs)
  {
    if |vs| == 0 then None
    else if vs[0].ref == ref then Some(vs[0].value)
    else Get(vs[1..], ref)
  }

  /** PropertyValues.add: a reference already present gets the new value,
      a new one is appended. */
  function Put(vs: ValueSet, e: Entry): (r: ValueSet)
    ensures Refs(r) == Refs(vs) + {e.ref}
    ensures forall ref :: Get(r, ref) == if ref == e.ref then Some(e.value) else Get(vs, ref)
  {
    if |vs| == 0 then
      Prepend(e, []);
      [e]
    else
      var tail: ValueSet := vs[1..];
      if vs[0].ref == e.ref then
        Prepend(e, tail);
        [e] + tail
      else
        var rest := Put(tail, e);
        Prepend(vs[0], rest);
        [vs[0]] + rest
  }

  /** Prepending an entry whose reference is new keeps references distinct. */
  lemma Prepend(e: Entry, tail: ValueSet)
    requires e.ref !in Refs(tail)
    ensures DistinctRefs([e] + tail)
    ensures Refs([e] + tail) == {e.ref} + Refs(tail)
    ensures forall ref :: Get([e] + tail, ref) == if ref == e.ref then Some(e.value) else Get(tail, ref)
  {
    assert ([e] + tail)[0] == e;
    assert ([e] + tail)[1..] == tail;
  }

  /** The inner loop of readPropValsInBatches: every entry of one chunk's
      result is added to the accumulated values. */
  function Merge(acc: ValueSet, l: ValueSet): (r: ValueSet)
    ensures Refs(r) == Refs(acc) + Refs(l)
    ensures forall ref :: Get(r, ref) == if Get(l, ref).Some? then Get(l, ref) else Get(acc, ref)
    decreases |l|
  {
    if |l| == 0 then acc else Merge(Put(acc, l[0]), l[1..])
  }

  /** readPropValsInBatches: the chunks are read one after the other and
      merged into `pvs`; the first chunk whose read throws ends the whole
      fallback with that exception. Written as a recursion on the chunks
      read so far, so that chunk `i` is always the `i`-th call. */
  function ReadInBatches(readChunk: ChunkReader, chunks: seq<seq<PropRef>>, pvs: ValueSet)
    : (r: Result<ValueSet, ReadError>)
    ensures r.Ok? <==> forall i :: 0 <= i < |chunks| ==> readChunk(i, chunks[i]).Ok?
    ensures r.Ok? ==> Refs(pvs) <= Refs(r.value)
    decreases |chunks|
  {
    if |chunks| == 0 then Ok(pvs)
    else
      var n := |chunks| - 1;
      assert forall i :: 0 <= i < n ==> chunks[..n][i] == chunks[i];
      match ReadInBatches(readChunk, chunks[..n], pvs)
      case Err(e) => Err(e)
      case Ok(acc) =>
        match readChunk(n, chunks[n])
        case Err(e) => Err(e)
        case Ok(lpvs) => Ok(Merge(acc, lpvs))
  }

  /** tryGetValue(oid, pvs, presentValue): the point's present value, or
      null when the set holds none for it or holds the device's error. */
  function TryGetValue(oid: Oid, pvs: ValueSet): (v: Option<Encodable>)
    ensures v.Some? <==> ReadableIn(pvs, oid)
    ensures v.Some? ==> v == Get(pvs, PresentValueRef(oid))
  {
    match Get(pvs, PresentValueRef(oid))
    case Some(Datum(x)) => Some(Datum(x))
    case _ => None
  }

  /** The record loop of sendRequest with printDataPoint: one record per
      reference in the value set, all stamped with the same time. */
  function Records(pvs: ValueSet, instance: int, curTime: int): (batch: seq<Record>)
    ensures |batch| == |pvs|
    ensures forall i :: 0 <= i < |batch| ==>
      && batch[i].oid == pvs[i].ref.oid
      && batch[i].instance == instance
      && batch[i].time == curTime
      && (batch[i].value.None? <==> !ReadableIn(pvs, pvs[i].ref.oid))
      && (batch[i].value.Some? ==> batch[i].value == Get(pvs, PresentValueRef(pvs[i].ref.oid)))
  {
    seq(|pvs|, i requires 0 <= i < |pvs| =>
      Record(pvs[i].ref.oid, TryGetValue(pvs[i].ref.oid, pvs), instance, curTime))
  }

  /** The value set holds a data value (not an error) for the oid's present value. */
  predicate ReadableIn(pvs: seq<Entry>, oid: Oid) {
    var v := Get(pvs, PresentValueRef(oid));
    v.Some? && v.value.Datum?
  }

  /** The reading half of sendRequest: build the due references, read them
      in bulk, and on a BACnetException (a timeout included) fall back to
      chunked reads into an empty value set. Any other exception, and a
      failing chunk, ends the cycle. */
  function ReadValues(task: PollTask, remote: Remote): (r: Result<ValueSet, CycleFailure>)
    ensures var due := DueRefs(task.cachedOids, task.multipliers, task.numTimesRun);
      && (due.Err? ==> r == Err(due.error))
      && (due.Ok? && remote.read(due.value).Ok? ==> r == Ok(remote.read(due.value).value))
      && (due.Ok? && remote.read(due.value) == Err(OtherException) ==> r == Err(ReadFailed(OtherException)))
      && (due.Ok? && remote.read(due.value).Err? && remote.read(due.value).error != OtherException ==>
            var fallback := ReadInBatches(remote.readChunk, remote.partition(due.value), []);
            && (r.Ok? <==> forall i :: 0 <= i < |remote.partition(due.value)| ==>
                             remote.readChunk(i, remote.partition(due.value)[i]).Ok?)
            && (r.Ok? ==> r.value == fallback.value)
            && (r.Err? ==> r.error == ReadFailed(fallback.error)))
  {
    var refs :- DueRefs(task.cachedOids, task.multipliers, task.numTimesRun);
    match remote.read(refs)
    case Ok(pvs) => Ok(pvs)
    case Err(OtherException) => Err(ReadFailed(OtherException))
    case Err(_) =>
      match ReadInBatches(remote.readChunk, remote.partition(refs), [])
      case Ok(pvs) => Ok(pvs)
      case Err(e) => Err(ReadFailed(e))
  }

  /** sendRequest: nothing happens without cached oids; otherwise the values
      read become one record batch handed to the recorder pool. */
  function SendRequest(task: PollTask, remote: Remote, curTime: int): (r: Result<Sent, CycleFailure>)
    ensures r == Ok(NothingToScan) <==> |task.cachedOids| == 0
    ensures r.Err? <==> |task.cachedOids| > 0 && ReadValues(task, remote).Err?
    ensures r.Ok? && r.value.Submitted? ==>
      && |r.value.batch| == |ReadValues(task, remote).value|
      && forall d :: d in r.value.batch ==> d.time == curTime && d.instance == task.instance
    ensures r.Ok? && r.value.Submitted? ==>
      var pvs := ReadValues(task, remote).value;
      forall i :: 0 <= i < |r.value.batch| ==>
        && r.value.batch[i].oid == pvs[i].ref.oid
        && (r.value.batch[i].value.None? <==> !ReadableIn(pvs, pvs[i].ref.oid))
        && (r.value.batch[i].value.Some? ==> r.value.batch[i].value == Get(pvs, PresentValueRef(pvs[i].ref.oid)))
  {
    if |task.cachedOids| == 0 then
      Ok(NothingToScan)
    else
      var pvs :- ReadValues(task, remote);
      Ok(Submitted(Records(pvs, task.instance, curTime)))
  }

  /** run(): sendRequest's exceptions are caught and logged, a timeout
      separately, and numTimesRun is incremented in the finally block. */
  function Run(task: PollTask, remote: Remote, curTime: int): (r: (PollTask, RunLog))
    ensures r.0 == task.(numTimesRun := task.numTimesRun + 1)
    ensures r.1.DeviceTimeout? <==> SendRequest(task, remote, curTime) == Err(ReadFailed(Timeout))
    ensures r.1.Done? <==> SendRequest(task, remote, curTime).Ok?
  {
    var log :=
      match SendRequest(task, remote, curTime)
      case Ok(sent) => Done(sent)
      case Err(ReadFailed(Timeout)) => DeviceTimeout
      case Err(f) => ExceptionLogged(f);
    (task.(numTimesRun := task.numTimesRun + 1), log)
  }

  /** A chunk read that throws aborts the whole fallback with its exception,
      whatever the earlier chunks returned. */
  lemma {:induction false} BatchAbortsAtFirstFailure(
    readChunk: ChunkReader,
    chunks: seq<seq<PropRef>>,
    pvs: ValueSet,
    k: nat)
    requires k < |chunks| && readChunk(k, chunks[k]).Err?
    requires forall j :: 0 <= j < k ==> readChunk(j, chunks[j]).Ok?
    ensures ReadInBatches(readChunk, chunks, pvs) == Err(readChunk(k, chunks[k]).error)
    decreases |chunks|
  {
    var n := |chunks| - 1;
    assert forall j :: 0 <= j < n ==> chunks[..n][j] == chunks[j];
    if k < n {
      BatchAbortsAtFirstFailure(readChunk, chunks[..n], pvs, k);
    }
  }

  /** When the fallback succeeds, every reference some chunk returned is in
      the merged set, with the value of the last chunk that returned it. */
  lemma {:induction false} BatchKeepsEveryChunk(
    readChunk: ChunkReader,
    chunks: seq<seq<PropRef>>,
    pvs: ValueSet,
    i: nat,
    ref: PropRef)
    requires ReadInBatches(readChunk, chunks, pvs).Ok?
    requires i < |chunks| && ref in Refs(readChunk(i, chunks[i]).value)
    requires forall j :: i < j < |chunks| ==> ref !in Refs(readChunk(j, chunks[j]).value)
    ensures Get(ReadInBatches(readChunk, chunks, pvs).value, ref) == Get(readChunk(i, chunks[i]).value, ref)
    decreases |chunks|
  {
    var n := |chunks| - 1;
    assert forall j :: 0 <= j < n ==> chunks[..n][j] == chunks[j];
    if i < n {
      BatchKeepsEveryChunk(readChunk, chunks[..n], pvs, i, ref);
    }
  }

  /** A reference no chunk returns keeps the value it had before the fallback. */
  lemma {:induction false} KeepsUnlessOverwritten(
    readChunk: ChunkReader,
    chunks: seq<seq<PropRef>>,
    pvs: ValueSet,
    ref: PropRef)
    requires ReadInBatches(readChunk, chunks, pvs).Ok?
    requires forall j :: 0 <= j < |chunks| ==> ref !in Refs(readChunk(j, chunks[j]).value)
    ensures Get(ReadInBatches(readChunk, chunks, pvs).value, ref) == Get(pvs, ref)
    decreases |chunks|
  {
    if |chunks| > 0 {
      var n := |chunks| - 1;
      assert forall j :: 0 <= j < n ==> chunks[..n][j] == chunks[j];
      KeepsUnlessOverwritten(readChunk, chunks[..n], pvs, ref);
    }
  }

  /** Every reference in the merged set was already there or came from a chunk. */
  lemma {:induction false} BatchRefsComeFromChunks(
    readChunk: ChunkReader,
    chunks: seq<seq<PropRef>>,
    pvs: ValueSet,
    ref: PropRef)
    requires ReadInBatches(readChunk, chunks, pvs).Ok?
    requires ref in Refs(ReadInBatches(readChunk, chunks, pvs).value) && ref !in Refs(pvs)
    ensures exists i :: 0 <= i < |chunks| && readChunk(i, chunks[i]).Ok? && ref in Refs(readChunk(i, chunks[i]).value)
    decreases |chunks|
  {
    var n := |chunks| - 1;
    assert forall j :: 0 <= j < n ==> chunks[..n][j] == chunks[j];
    if ref !in Refs(readChunk(n, chunks[n]).value) {
      BatchRefsComeFromChunks(readChunk, chunks[..n], pvs, ref);
    }
  }

  /** The references of a sequence of chunks. */
  function AllRefs(chunks: seq<seq<PropRef>>): set<PropRef> {
    if |chunks| == 0 then {}
    else
      var last := chunks[|chunks| - 1];
      AllRefs(chunks[..|chunks| - 1]) + set r | r in last
  }

  /** What getPropertiesPartitioned(CHUNK_SIZE) promises of its chunks: they
      hold exactly the requested references, at most CHUNK_SIZE each. */
  predicate PartitionOf(chunks: seq<seq<PropRef>>, refs: seq<PropRef>) {
    && AllRefs(chunks) == (set r | r in refs)
    && forall i :: 0 <= i < |chunks| ==> |chunks[i]| <= CHUNK_SIZE
  }

  /** Every chunk read succeeds and answers exactly the references it was
      asked for. */
  predicate AnswersFully(readChunk: ChunkReader, chunks: seq<seq<PropRef>>) {
    forall i :: 0 <= i < |chunks| ==>
      readChunk(i, chunks[i]).Ok? && Refs(readChunk(i, chunks[i]).value) == set r | r in chunks[i]
  }

  /** When every chunk read answers fully, the merged set covers exactly the
      requested references. */
  lemma {:induction false} FallbackCoversChunks(readChunk: ChunkReader, chunks: seq<seq<PropRef>>, pvs: ValueSet)
    requires AnswersFully(readChunk, chunks)
    ensures ReadInBatches(readChunk, chunks, pvs).Ok?
    ensures Refs(ReadInBatches(readChunk, chunks, pvs).value) == Refs(pvs) + AllRefs(chunks)
    decreases |chunks|
  {
    if |chunks| > 0 {
      var n := |chunks| - 1;
      assert forall j :: 0 <= j < n ==> chunks[..n][j] == chunks[j];
      FallbackCoversChunks(readChunk, chunks[..n], pvs);
    }
  }

  /** A value set holds as many entries as distinct references. */
  lemma {:induction false} ValueSetSize(vs: ValueSet)
    ensures |Refs(vs)| == |vs|
  {
    if |vs| > 0 {
      ValueSetSize(vs[1..]);
    }
  }

  /** The references of a sequence of entries are those at its positions. */
  lemma {:induction false} RefsAt(vs: seq<Entry>)
    ensures forall ref :: ref in Refs(vs) <==> exists i :: 0 <= i < |vs| && vs[i].ref == ref
  {
    if |vs| > 0 {
      RefsAt(vs[1..]);
      forall ref | ref in Refs(vs[1..]) ensures exists i :: 0 <= i < |vs| && vs[i].ref == ref {
        var j :| 0 <= j < |vs| - 1 && vs[1..][j].ref == ref;
        assert vs[j + 1].ref == ref;
      }
    }
  }

  /** The fallback's hypothesis: the bulk read of the due references fails
      with a BACnet exception, the partition holds exactly the due references,
      and every chunk answers fully. */
  predicate FallbackAnswersFully(task: PollTask, remote: Remote) {
    var due := DueRefs(task.cachedOids, task.multipliers, task.numTimesRun);
    && due.Ok?
    && remote.read(due.value) in {Err(Timeout), Err(ProtocolError)}
    && PartitionOf(remote.partition(due.value), due.value)
    && AnswersFully(remote.readChunk, remote.partition(due.value))
  }

  /** Under that hypothesis the values read hold exactly the due references. */
  lemma FallbackReadsDue(task: PollTask, remote: Remote)
    requires FallbackAnswersFully(task, remote)
    ensures ReadValues(task, remote).Ok?
    ensures Refs(ReadValues(task, remote).value)
      == set r | r in DueRefs(task.cachedOids, task.multipliers, task.numTimesRun).value
  {
    var refs := DueRefs(task.cachedOids, task.multipliers, task.numTimesRun).value;
    var empty: ValueSet := [];
    FallbackCoversChunks(remote.readChunk, remote.partition(refs), empty);
  }

  /** After a failed bulk read, when the partition holds exactly the due
      references and every chunk answers fully, sendRequest submits one
      record per distinct due reference, and the records name exactly the
      due points. */
  lemma FallbackRecordCount(task: PollTask, remote: Remote, curTime: int)
    requires |task.cachedOids| > 0
    requires FallbackAnswersFully(task, remote)
    ensures var sent := SendRequest(task, remote, curTime);
      && sent.Ok? && sent.value.Submitted?
      && |sent.value.batch| == |set r | r in DueRefs(task.cachedOids, task.multipliers, task.numTimesRun).value|
      && forall o :: (exists i :: 0 <= i < |sent.value.batch| && sent.value.batch[i].oid == o) <==>
           o in task.cachedOids && DueIn(task.multipliers, o, task.numTimesRun)
  {
    var refs := DueRefs(task.cachedOids, task.multipliers, task.numTimesRun).value;
    FallbackReadsDue(task, remote);
    var pvs := ReadValues(task, remote).value;
    ValueSetSize(pvs);
    var batch := Records(pvs, task.instance, curTime);
    assert SendRequest(task, remote, curTime) == Ok(Submitted(batch));
    forall o ensures (exists i :: 0 <= i < |batch| && batch[i].oid == o) <==>
                     o in task.cachedOids && DueIn(task.multipliers, o, task.numTimesRun)
    {
      RecordOids(pvs, task.instance, curTime, o);
    }
  }

  /** When every reference read is a presentValue reference, the records
      name exactly the points whose presentValue reference was read. */
  lemma RecordOids(pvs: ValueSet, instance: int, curTime: int, o: Oid)
    requires forall ref :: ref in Refs(pvs) ==> ref == PresentValueRef(ref.oid)
    ensures (exists i :: 0 <= i < |pvs| && Records(pvs, instance, curTime)[i].oid == o) <==>
            PresentValueRef(o) in Refs(pvs)
  {
    RefsAt(pvs);
    var batch := Records(pvs, instance, curTime);
    if exists i :: 0 <= i < |pvs| && batch[i].oid == o {
      var i :| 0 <= i < |pvs| && batch[i].oid == o;
      assert pvs[i].ref in Refs(pvs);
    }
    if PresentValueRef(o) in Refs(pvs) {
      var i :| 0 <= i < |pvs| && pvs[i].ref == PresentValueRef(o);
      assert batch[i].oid == o;
    }
  }

  /** When cached points exist but none is due on this tick, the empty
      reference set is still passed to the bulk read, and what that read
      answers decides the cycle: an empty answer is submitted as an empty
      batch, and a throw ends the cycle as any bulk failure does. */
  lemma NothingDueStillReads(task: PollTask, remote: Remote, curTime: int)
    requires |task.cachedOids| > 0
    requires forall o :: o in task.cachedOids ==>
      o in task.multipliers && task.multipliers[o].multiply != 0 && !IsDue(task.multipliers[o], task.numTimesRun)
    ensures DueRefs(task.cachedOids, task.multipliers, task.numTimesRun) == Ok([])
    ensures remote.read([]) == Ok([]) ==> SendRequest(task, remote, curTime) == Ok(Submitted([]))
    ensures remote.read([]) == Err(OtherException) ==>
      SendRequest(task, remote, curTime) == Err(ReadFailed(OtherException))
  {
    HeadIsMember(DueRefs(task.cachedOids, task.multipliers, task.numTimesRun).value);
  }

  lemma HeadIsMember(s: seq<PropRef>)
    ensures s == [] || s[0] in s
  {
  }

  /** One scheduled invocation: the device's answers and the wall-clock time. */
  datatype Poll = Poll(remote: Remote, curTime: int)

  /** Successive run() invocations. */
  function RunAll(task: PollTask, polls: seq<Poll>): PollTask
    decreases |polls|
  {
    if |polls| == 0 then task
    else RunAll(Run(task, polls[0].remote, polls[0].curTime).0, polls[1..])
  }

  /** k invocations of run() advance the tick counter by exactly k and change
      nothing else, however each cycle ended. */
  lemma {:induction false} RunAllAdvances(task: PollTask, polls: seq<Poll>)
    ensures RunAll(task, polls) == task.(numTimesRun := task.numTimesRun + |polls|)
    decreases |polls|
  {
    if |polls| > 0 {
      RunAllAdvances(Run(task, polls[0].remote, polls[0].curTime).0, polls[1..]);
    }
  }

  /** createOidRefs asks for the point's present value on this tick. */
  predicate Requested(oids: seq<Oid>, multipliers: map<Oid, MultiplyConfig>, oid: Oid, tick: nat) {
    var r := DueRefs(oids, multipliers, tick);
    r.Ok? && PresentValueRef(oid) in r.value
  }

  /** With configurations as init produces them, a cached point is requested
      on exactly one tick of every `multiply` consecutive ticks. */
  lemma RequestedOncePerWindow(
    oids: seq<Oid>,
    multipliers: map<Oid, MultiplyConfig>,
    oid: Oid,
    start: nat)
    requires forall o :: o in oids ==> o in multipliers && ValidConfig(multipliers[o])
    requires oid in oids
    ensures |set t: nat | start <= t < start + multipliers[oid].multiply
                          && Requested(oids, multipliers, oid, t)| == 1
  {
    var c := multipliers[oid];
    var ticks := set t: nat | start <= t < start + c.multiply && Requested(oids, multipliers, oid, t);
    forall t: nat ensures t in ticks <==> t in DueTicks(c, start) {
      var r := DueRefs(oids, multipliers, t);
      assert r.Ok?;
    }
    assert ticks == DueTicks(c, start);
    DueOncePerWindow(c, start);
  }
}

=== FILE: results.dfy ===
/** Failure-compatible return types: the model's stand-in for Java's null
    references and thrown exceptions. */
module Results {

  /** A value that may be absent (a Java reference that may be null). */
  datatype Option<+T> = None | Some(value: T)

  /** Either a computed value or the exception that ended the computation. */
  datatype Result<+T, +E> = Ok(value: T) | Err(error: E) {

    predicate IsFailure() {
      Err?
    }

    function PropagateFailure<U>(): Result<U, E>
      requires Err?
    {
      Err(error)
    }

    function Extract(): T
      requires Ok?
    {
      value
    }
  }
}

=== FILE: schedule.dfy ===
/** PollDeviceTask's interval multiplexing: `init` folds every point's
    desired interval into one base period, gives each point a multiplier and
    a random phase, and `createOidRefsImpl` selects the points due on a tick. */
module IntervalSchedule {

  import opened Results
  import opened JavaInt
  import opened Divisibility
  import Arith

  /** Fallback period when no interval is registered: two hours. */
  const FALLBACK_PERIOD: Int32 := 2 * 60 * 60
  /** The smallest base period `init` accepts, in seconds. */
  const MIN_BASE: Int32 := 15

  /** A BACnet object identifier. */
  datatype Oid = Oid(objectType: nat, instance: nat)

  /** One entry of the `intervals` map: a point and its poll interval in seconds. */
  datatype Interval = Interval(oid: Oid, seconds: Int32)

  /** A point's MultiplyConfig: polled on ticks where tick % multiply == random. */
  datatype MultiplyConfig = MultiplyConfig(multiply: Int32, random: Int32)

  /** Initial delay and period handed to the scheduling facility. */
  datatype Delay = Delay(delay: Int32, period: Int32)

  datatype Schedule = Schedule(delay: Delay, multipliers: map<Oid, MultiplyConfig>)

  /** The exceptions `init` can end with. */
  datatype InitError =
    | NullUnboxed                  // `current` is still null when unboxed
    | GcdBelowFloor(gcd: Int32)    // IllegalStateException: base period below 15 s
    | NonPositiveBound(bound: Int32) // IllegalArgumentException from Random.nextInt

  /** The running gcd and the `min` variable after the reduction loop. */
  datatype Reduction = Reduction(current: Int32, min: Int32)

  /** The `intervals` map as the iteration order of its entries: keys are distinct. */
  predicate DistinctOids(intervals: seq<Interval>) {
    forall i, j :: 0 <= i < j < |intervals| ==> intervals[i].oid != intervals[j].oid
  }

  function Seconds(intervals: seq<Interval>): (r: seq<Int32>)
    ensures |r| == |intervals|
    ensures forall i :: 0 <= i < |r| ==> r[i] == intervals[i].seconds
  {
    seq(|intervals|, i requires 0 <= i < |intervals| => intervals[i].seconds)
  }

  function Magnitudes(xs: seq<int>): (r: seq<nat>)
    ensures |r| == |xs|
    ensures forall i :: 0 <= i < |r| ==> r[i] == Abs(xs[i])
    ensures AllPositive(xs) ==> r == xs
  {
    seq(|xs|, i requires 0 <= i < |xs| => Abs(xs[i]))
  }

  /** BigInteger gcd of the magnitudes, narrowed back to an `int`: 0 for two
      zeros, otherwise a value whose magnitude is the greatest common divisor
      of the magnitudes (gcd(MIN_VALUE, MIN_VALUE) = 2^31 narrows to MIN_VALUE).
      For two positive intervals it is their greatest common divisor itself. */
  function GcdThing(a: Int32, b: Int32): (r: Int32)
    ensures a == 0 && b == 0 ==> r == 0
    ensures r < 0 ==> r == INT_MIN
    ensures a != 0 || b != 0 ==> IsGcdOf(Abs(r), [Abs(a), Abs(b)])
    ensures a > 0 && b > 0 ==> IsGcdOf(r, [a, b])
  {
    var g := Gcd(Abs(a), Abs(b));
    if a == 0 && b == 0 then
      ToInt32(g)
    else
      PairIsGcd(Abs(a), Abs(b));
      ToInt32(g)
  }

  /** The gcd of two magnitudes of `int`s, not both zero, survives the
      narrowing in magnitude, and keeps its value when one of them is a
      positive `int`. */
  lemma PairIsGcd(a: nat, b: nat)
    requires a <= 0x8000_0000 && b <= 0x8000_0000 && (a > 0 || b > 0)
    ensures 0 < Gcd(a, b) && Abs(ToInt32(Gcd(a, b))) == Gcd(a, b)
    ensures IsGcdOf(Gcd(a, b), [a, b])
    ensures 0 < a <= INT_MAX ==> ToInt32(Gcd(a, b)) == Gcd(a, b)
  {
    var g := Gcd(a, b);
    GcdDivides(a, b);
    if a > 0 {
      DividesLe(g, a);
    } else {
      DividesLe(g, b);
    }
    AbsToInt32(g);
    forall d | DividesAll(d, [a, b]) ensures Divides(d, g) {
      assert Divides(d, [a, b][0]) && Divides(d, [a, b][1]);
      GcdGreatest(a, b, d);
    }
  }

  /** For positive intervals the narrowing is lossless and the fold is
      their greatest common divisor, bounded by each of them. */
  lemma PositiveFold(xs: seq<Int32>)
    requires |xs| > 0 && AllPositive(xs)
    ensures 0 < GcdOfAll(Magnitudes(xs)) <= INT_MAX
    ensures ToInt32(GcdOfAll(Magnitudes(xs))) == GcdOfAll(Magnitudes(xs))
    ensures IsGcdOf(GcdOfAll(Magnitudes(xs)), xs)
    ensures forall i :: 0 <= i < |xs| ==> GcdOfAll(Magnitudes(xs)) <= xs[i]
  {
    var mags := Magnitudes(xs);
    FoldPositive(mags);
    GcdOfAllIsGcd(mags);
    var g := GcdOfAll(mags);
    forall i | 0 <= i < |xs| ensures g <= xs[i] {
      assert Divides(g, mags[i]);
      DividesLe(g, mags[i]);
    }
  }

  /** One gcdThing step extends the fold by the next value, and the
      narrowed result keeps the fold's magnitude. */
  lemma FoldStep(values: seq<Int32>, k: nat, cur: Int32)
    requires 1 <= k < |values|
    requires Abs(cur) == GcdOfAll(Magnitudes(values)[..k])
    ensures GcdThing(cur, values[k]) == ToInt32(GcdOfAll(Magnitudes(values)[..k + 1]))
    ensures Abs(GcdThing(cur, values[k])) == GcdOfAll(Magnitudes(values)[..k + 1])
  {
    var mags := Magnitudes(values);
    assert mags[..k + 1][..k] == mags[..k];
    GcdOfAllBounded(mags[..k + 1], 0x8000_0000);
    AbsToInt32(GcdOfAll(mags[..k + 1]));
  }

  /** The reduction loop of `init`: the first iteration consumes two
      values, each iteration folds `next` into `current` with gcdThing and
      sets `min` to Math.min(current, next). `values` is the iteration order
      of the interval map. */
  method ReduceIntervals(values: seq<Int32>) returns (r: Result<Reduction, InitError>)
    ensures r.Err? <==> |values| < 2
    ensures r.Err? ==> r.error == NullUnboxed
    ensures r.Ok? ==> r.value.current == ToInt32(GcdOfAll(Magnitudes(values)))
    ensures r.Ok? ==> r.value.min == Min(r.value.current, values[|values| - 1])
    ensures r.Ok? && AllPositive(values) ==>
      && IsGcdOf(r.value.current, values)
      && r.value.min == r.value.current
  {
    var mags := Magnitudes(values);
    var i := 0;
    var current: Option<Int32> := None;
    var min: Int32 := INT_MAX;
    while i < |values|
      invariant 0 <= i <= |values|
      invariant current.None? <==> i == 0
      invariant current.Some? ==> i >= 2
      invariant current.Some? ==> current.value == ToInt32(GcdOfAll(mags[..i]))
      invariant current.Some? ==> Abs(current.value) == GcdOfAll(mags[..i])
      invariant current.Some? ==> min == Min(current.value, values[i - 1])
    {
      var next := values[i];
      i := i + 1;
      if i < |values| && current.None? {
        current := Some(next);
        next := values[i];
        i := i + 1;
        assert mags[..1] == [mags[0]];
        assert GcdOfAll(mags[..1]) == Gcd(0, mags[0]) == Gcd(mags[0], 0);
      }
      if current.None? {
        assert |values| == 1;
        return Err(NullUnboxed);
      }
      FoldStep(values, i - 1, current.value);
      current := Some(GcdThing(current.value, next));
      min := Min(current.value, next);
    }
    if current.None? {
      // Unboxing `current` in the floor check throws as well.
      return Err(NullUnboxed);
    }
    assert mags[..i] == mags;
    r := Ok(Reduction(current.value, min));
    if AllPositive(values) {
      PositiveFold(values);
    }
  }

  function Oids(intervals: seq<Interval>): set<Oid> {
    set i | 0 <= i < |intervals| :: intervals[i].oid
  }

  /** A point's configuration reproduces its interval from the base period,
      and its phase is one of the multiplier's residues. */
  predicate ConfigFits(c: MultiplyConfig, seconds: int, base: int) {
    && c.multiply * base == seconds
    && 1 <= c.multiply
    && 0 <= c.random < c.multiply
  }

  /** What `init` promises of the schedule it returns for a non-empty
      interval map. */
  ghost predicate ScheduleFits(s: Schedule, intervals: seq<Interval>) {
    && IsGcdOf(s.delay.period, Seconds(intervals))
    && s.delay.period >= MIN_BASE
    && 0 <= s.delay.delay < s.delay.period
    && s.multipliers.Keys == Oids(intervals)
    && forall i :: 0 <= i < |intervals| ==>
         ConfigFits(s.multipliers[intervals[i].oid], intervals[i].seconds, s.delay.period)
  }

  /** The gcd `init` computes for a map of two or more intervals, as a Java int. */
  function BaseOf(intervals: seq<Interval>): Int32 {
    ToInt32(GcdOfAll(Magnitudes(Seconds(intervals))))
  }

  /** The multiplier loop of `init`: each point gets multiply = interval / base
      (Java division) and a phase drawn by r.nextInt(multiply), which throws
      for a bound that is not positive. */
  method AssignMultipliers(intervals: seq<Interval>, base: Int32)
    returns (r: Result<map<Oid, MultiplyConfig>, InitError>)
    requires DistinctOids(intervals)
    requires base > 0 && DividesAll(base, Magnitudes(Seconds(intervals)))
    ensures r.Ok? <==> AllPositive(Seconds(intervals))
    ensures r.Err? ==> r.error.NonPositiveBound?
    ensures r.Ok? ==> r.value.Keys == Oids(intervals)
    ensures r.Ok? ==> forall i :: 0 <= i < |intervals| ==>
      ConfigFits(r.value[intervals[i].oid], intervals[i].seconds, base)
  {
    var values := Seconds(intervals);
    var mags := Magnitudes(values);
    var multipliers: map<Oid, MultiplyConfig> := map[];
    for i := 0 to |intervals|
      invariant AllPositive(values[..i])
      invariant multipliers.Keys == Oids(intervals[..i])
      invariant forall j :: 0 <= j < i ==>
        ConfigFits(multipliers[intervals[j].oid], intervals[j].seconds, base)
    {
      var seconds := intervals[i].seconds;
      var multiply: Int32 := Quot(seconds, base);
      if multiply <= 0 {
        assert values[i] <= 0;
        return Err(NonPositiveBound(multiply));
      }
      assert Divides(base, mags[i]);
      DividesLe(base, mags[i]);
      var random: Int32 :| 0 <= random < multiply;
      multipliers := multipliers[intervals[i].oid := MultiplyConfig(multiply, random)];
      assert intervals[..i + 1] == intervals[..i] + [intervals[i]];
    }
    assert values[..|intervals|] == values;
    assert intervals[..|intervals|] == intervals;
    return Ok(multipliers);
  }

  /** When the narrowed gcd passes the floor it is the exact fold, which
      divides every interval's magnitude. */
  lemma BaseDividesAll(intervals: seq<Interval>)
    requires BaseOf(intervals) >= MIN_BASE
    ensures BaseOf(intervals) == GcdOfAll(Magnitudes(Seconds(intervals)))
    ensures DividesAll(BaseOf(intervals), Magnitudes(Seconds(intervals)))
  {
    var mags := Magnitudes(Seconds(intervals));
    GcdOfAllBounded(mags, 0x8000_0000);
    GcdOfAllIsGcd(mags);
  }

  /** PollDeviceTask.init. `intervals` is the interval map in its iteration
      order; every `r.nextInt(k)` is a nondeterministic choice in [0, k). */
  method Init(intervals: seq<Interval>) returns (r: Result<Schedule, InitError>)
    requires DistinctOids(intervals)
    ensures |intervals| == 0 ==>
      && r.Ok?
      && r.value.delay.period == FALLBACK_PERIOD
      && 0 <= r.value.delay.delay < FALLBACK_PERIOD
      && r.value.multipliers == map[]
    ensures |intervals| == 1 ==> r == Err(NullUnboxed)
    ensures |intervals| >= 2 && BaseOf(intervals) < MIN_BASE ==>
      r == Err(GcdBelowFloor(BaseOf(intervals)))
    ensures r.Ok? <==>
      || |intervals| == 0
      || (&& |intervals| >= 2
          && AllPositive(Seconds(intervals))
          && GcdOfAll(Magnitudes(Seconds(intervals))) >= MIN_BASE)
    ensures r.Err? && |intervals| >= 2 && BaseOf(intervals) >= MIN_BASE ==>
      r.error.NonPositiveBound?
    ensures r.Ok? && |intervals| > 0 ==> ScheduleFits(r.value, intervals)
  {
    if |intervals| == 0 {
      var delay: Int32 :| 0 <= delay < FALLBACK_PERIOD;
      return Ok(Schedule(Delay(delay, FALLBACK_PERIOD), map[]));
    }
    var values := Seconds(intervals);
    var red := ReduceIntervals(values);
    if red.Err? {
      return Err(red.error);
    }
    var current := red.value.current;
    assert current == BaseOf(intervals);
    if AllPositive(values) {
      PositiveFold(values);
    }
    if current < MIN_BASE {
      return Err(GcdBelowFloor(current));
    }
    BaseDividesAll(intervals);
    var multipliers := AssignMultipliers(intervals, current);
    if multipliers.Err? {
      return Err(multipliers.error);
    }
    var delay: Int32 :| 0 <= delay < red.value.min;
    return Ok(Schedule(Delay(delay, current), multipliers.value));
  }

  /** A configuration `init` can produce. */
  predicate ValidConfig(c: MultiplyConfig) {
    1 <= c.multiply && 0 <= c.random < c.multiply
  }

  /** createOidRefsImpl's selection test, numTimesRun % multiplier == random,
      written with Dafny's remainder; `IsDueIsJavaRemainder` shows that on a
      non-negative tick it agrees with Java's. */
  predicate IsDue(c: MultiplyConfig, tick: nat)
    requires c.multiply != 0
  {
    tick % c.multiply == c.random
  }

  /** On a non-negative tick Java's truncating remainder equals Dafny's
      Euclidean one for every non-zero divisor, whatever its sign, so `IsDue`
      is the test the code makes. */
  lemma IsDueIsJavaRemainder(c: MultiplyConfig, tick: nat)
    requires c.multiply != 0
    ensures IsDue(c, tick) <==> Rem(tick, c.multiply) == c.random
  {
    if c.multiply < 0 {
      Arith.ModNegativeDivisor(tick, c.multiply);
    }
  }

  /** The ticks in [start, start + multiply) on which the point is due. */
  function DueTicks(c: MultiplyConfig, start: nat): set<nat>
    requires ValidConfig(c)
  {
    set t: nat | start <= t < start + c.multiply && IsDue(c, t)
  }

  /** A point's selection repeats with period `multiply`. */
  lemma DuePeriodic(c: MultiplyConfig, tick: nat)
    requires ValidConfig(c)
    ensures IsDue(c, tick) <==> IsDue(c, tick + c.multiply)
  {
    Arith.ModAddMultiple(tick, c.multiply, 1);
  }

  /** In any `multiply` consecutive ticks a point is due exactly once, on
      the tick `start + (random - start) % multiply`. */
  lemma DueOncePerWindow(c: MultiplyConfig, start: nat)
    requires ValidConfig(c)
    ensures var t0 := start + (c.random - start) % c.multiply;
      && DueTicks(c, start) == {t0}
      && |DueTicks(c, start)| == 1
  {
    var m := c.multiply;
    var q := (c.random - start) / m;
    var t0 := start + (c.random - start) % m;
    assert c.random - start == m * q + (c.random - start) % m;
    assert t0 == c.random + m * (-q);
    Arith.ModAddMultiple(c.random, m, -q);
    Arith.ModUnique(c.random, m, 0, c.random);
    assert t0 in DueTicks(c, start);
    forall t | t in DueTicks(c, start) ensures t == t0 {
      if t <= t0 {
        Arith.ModEqClose(t, t0, m);
      } else {
        Arith.ModEqClose(t0, t, m);
      }
    }
  }

  /** Intervals of 60, 120 and 180 seconds reduce to a 60-second base in
      whichever order the map yields them, and give multipliers 1, 2 and 3. */
  lemma ExampleBase60(ys: seq<nat>)
    requires multiset(ys) == multiset{60, 120, 180}
    ensures GcdOfAll(ys) == 60
    ensures forall c: MultiplyConfig, seconds :: seconds in ys && ConfigFits(c, seconds, 60) ==>
      c.multiply == seconds / 60 && c.multiply in {1, 2, 3}
  {
    var xs: seq<nat> := [60, 120, 180];
    assert xs[..2] == [60, 120] && xs[..2][..1] == [60] && [60][..0] == [];
    assert GcdOfAll([60]) == Gcd(0, 60) == Gcd(60, 0) == 60;
    assert GcdOfAll([60, 120]) == Gcd(60, 120) == Gcd(120, 60) == Gcd(60, 0) == 60;
    assert GcdOfAll(xs) == Gcd(60, 180) == Gcd(180, 60) == Gcd(60, 0) == 60;
    assert multiset(xs) == multiset{60, 120, 180};
    GcdOfAllOrderIndependent(xs, ys);
    forall c: MultiplyConfig, seconds | seconds in ys && ConfigFits(c, seconds, 60)
      ensures c.multiply == seconds / 60 && c.multiply in {1, 2, 3}
    {
      assert seconds in multiset(ys);
      Arith.MulMod(60, c.multiply);
      assert c.multiply * 60 == 60 * c.multiply;
    }
  }
}
